=== FILE: README.md ===
# fastq-split, modelled in Dafny

`fastq_split.py` splits one FASTQ file (plain or gzip-compressed) into `nfiles`
output files with whole records only. It makes one pass to count the records.
It then plans the output names and a per-file quota, `total // nfiles`. A second
pass streams the records into the planned files in order. The writer moves on to
the next file only once the current file holds exactly the quota and more than
one planned file is left. So the last file opened takes all the remaining
records, including the remainder of the division.

This project models that core as pure Dafny:

- `failures.dfy`, module `Failures`: the three exceptions the core can raise, and
  a `Result` type that carries them.
- `decimal.dfy`, module `Decimal`: the decimal numeral of a natural number, as an
  f-string prints an `int`, together with its inverse.
- `extension.dfy`, module `ExtensionResolver`: `determine_extention`, a raw,
  case-sensitive suffix test against `fastq.gz`, `fastq`, `fq.gz` and `fq`.
- `planner.dfy`, module `PartitionPlanner`: `subset_program`. This covers the stem
  cut with Python's slice clamping, the quota as Python's floor division, and the
  output names `{output_dir}/{stem}_{i+1}.{ext}`.
- `writer.dfy`, module `PartitionedWriter`: `fastq_records_to_file_w_max`.
  - `Step` and `Run` are the rollover state machine over a sequence of opaque
    records `R`. Its state holds a cursor over the fixed target list, a
    per-file counter, one bucket per target, and the log of files opened.
  - `Target`, `Bound` and `Reference` form an independent closed form: which
    target each record lands in.
  - `RunMatchesReference` proves the two agree on every input.
  - `WriteRecords` is the loop itself. It pops the caller's path list exactly
    as the source does.
- `orchestrator.dfy`, module `Orchestrator`: `estimate_fastq_records` and
  `fastq_split`.

Behaviour of the code that the model keeps as written:

- `nfiles == 0` raises Python's division error. It is not a dedicated
  invalid-argument error.
- A negative `nfiles` plans no paths. It then fails on `subset_filepaths[0]` in
  the writer.
- With quota 0 (fewer records than files), at least two targets and at least
  one record, target 0 (the first file) is opened and left empty. Target 1
  receives every record, and later targets are never opened. Records are not
  spread one per file, and the paths of targets 2 onwards name files that are
  never created. Targets are counted from 0 here and in the table below.
- `fastq_split` hands back the path list after the writer has popped it. That is
  the paths from the last opened file on, not the whole plan (see Findings).

## Model

| member | source | states |
|---|---|---|
| Decimal.Show | fastq_split.py:50 | the numeral of `i+1` in an output name: at least one character, all decimal digits, and no leading zero |
| Decimal.ParseShow | fastq_split.py:50 | the numeral written for `i+1` in an output name reads back as the same number |
| Decimal.ShowInjective | fastq_split.py:50 | different file numbers are written as different numerals |
| ExtensionResolver.Resolve | fastq_split.py:23-37 | on success the path ends with the returned suffix; it fails with the unrecognised-extension error exactly when the path ends with none of the four suffixes |
| ExtensionResolver.SuffixesExclusive | fastq_split.py:28-35 | no path ends with two different recognised suffixes, so the order of the four tests cannot change the answer |
| ExtensionResolver.ResolveExact | fastq_split.py:28-37 | the resolver answers `e` if and only if the path ends with the suffix of `e` |
| ExtensionResolver.NoDotNeeded | fastq_split.py:30-31 | `abcfastq` resolves to `fastq`: no dot is required before the suffix |
| ExtensionResolver.AnyTextBeforeSuffix | fastq_split.py:28-29 | `notfastq.gz` resolves to `fastq.gz`: the rest of the name is not inspected |
| ExtensionResolver.CompressedSample | fastq_split.py:28-29 | `sample.fastq.gz` resolves to `fastq.gz` |
| ExtensionResolver.ShortSample | fastq_split.py:34-35 | `sample.fq` resolves to `fq` |
| ExtensionResolver.CaseSensitive | fastq_split.py:34-37 | `x.FQ` is rejected: no case folding |
| ExtensionResolver.UnknownSuffix | fastq_split.py:36-37 | `sample.txt` is rejected with the unrecognised-extension error |
| PartitionPlanner.FloorDiv | fastq_split.py:47 | the quotient rounded towards minus infinity for either sign of divisor, as Python's `//` |
| PartitionPlanner.Stem | fastq_split.py:45 | the stem is a prefix of the path; it is `|ext| + 1` characters shorter than the path, or empty when the path is no longer than that |
| PartitionPlanner.OutputPath | fastq_split.py:50 | an output name starts with `{output_dir}/{stem}_`, ends with `.ext`, and resolves to the extension it was built with |
| PartitionPlanner.Plan | fastq_split.py:40-53 | an unrecognised suffix fails first, then a zero file count fails with the division error; otherwise the plan has `max(0, nfiles)` paths, and for `nfiles >= 1` the quota `q` satisfies `q*nfiles <= total < (q+1)*nfiles` |
| PartitionPlanner.SingleFileQuota | fastq_split.py:47-51 | one output file: a single path whose quota is the whole record count |
| PartitionPlanner.StemOfDottedPath | fastq_split.py:45 | for a path `stem.ext` the stem cut off is exactly `stem` |
| PartitionPlanner.StemWithoutDot | fastq_split.py:45 | without a dot the character before the suffix is cut as well (`abcfastq` gives `ab`) |
| PartitionPlanner.StemOfBareSuffix | fastq_split.py:45 | a path that is only the suffix gives an empty stem, as Python clamps the slice |
| PartitionPlanner.PlannedPathsKeepExtension | fastq_split.py:44-51 | every output path ends in `.ext` and resolves to the input's own extension |
| PartitionPlanner.PlannedPathNumbering | fastq_split.py:49-51 | path `i` is `{output_dir}/{stem}_` then a numeral with no leading zero that reads back as `i+1` then `.ext` |
| PartitionPlanner.PlannedPathsDistinct | fastq_split.py:49-51 | no two planned output paths are equal |
| PartitionedWriter.Start | fastq_split.py:67-72 | before any record, target 0 is open, the counter is 0 and nothing is written |
| PartitionedWriter.RollsOver | fastq_split.py:78-80 | the rollover test never fires on the last target, never with a negative quota or a single target, and never unless the counter equals the quota |
| PartitionedWriter.Roll | fastq_split.py:78-90 | the rollover moves the cursor forward by one exactly when the counter equals the quota and more than one target is left, never past the last target, opening the next target and leaving every bucket untouched |
| PartitionedWriter.Put | fastq_split.py:92-93 | a write keeps the cursor and the opened files, appends the record to the current target's bucket, leaves every other bucket unchanged, and appends exactly that record to the concatenated output |
| PartitionedWriter.Step | fastq_split.py:78-93 | one record keeps the writer's state well formed (cursor on a target, targets `0..cursor` opened in order, later targets empty, counter equal to the current file's size) and appends exactly that record to the concatenated output |
| PartitionedWriter.Run | fastq_split.py:74-93 | after any record sequence the state is well formed and the buckets concatenated in target order are the input: nothing dropped, duplicated or reordered |
| PartitionedWriter.ReferenceFlatten | fastq_split.py:74-93 | the closed-form partition (record `k` to target `Target(k)`) also concatenates back to the input |
| PartitionedWriter.RunMatchesReference | fastq_split.py:67-93 | the rollover machine ends in the closed-form state: cursor on the last record's target, buckets the contiguous slices of the closed form, opened targets `0..cursor` |
| PartitionedWriter.RecordPlacement | fastq_split.py:78-93 | record `k` is in the bucket of `Target(k)` at its offset within that slice |
| PartitionedWriter.FilledBeforeCursor | fastq_split.py:78-90 | every target the writer has moved past received exactly the quota |
| PartitionedWriter.QuotaSizes | fastq_split.py:78-93 | with quota `q >= 1` and `(n-1)*q <= N`, each of the first `n-1` targets gets `q` records and the last gets `N-(n-1)*q` |
| PartitionedWriter.TenRecordsThreeTargets | fastq_split.py:78-93 | 10 records, 3 targets, quota 3: sizes 3, 3, 4 |
| PartitionedWriter.QuotaZero | fastq_split.py:78-93 | quota 0, at least two targets, at least one record: target 0 opened and empty, target 1 gets every record, nothing else opened |
| PartitionedWriter.TwoRecordsFiveTargets | fastq_split.py:78-93 | 2 records, 5 targets, quota 0: sizes 0, 2, 0, 0, 0 |
| PartitionedWriter.NoRecords | fastq_split.py:67-72 | no records: only target 0 is opened and every bucket is empty |
| PartitionedWriter.SingleTarget | fastq_split.py:80 | one target: it receives every record in order and nothing else is opened |
| PartitionedWriter.WriteRecords | fastq_split.py:56-95 | an empty path list fails with the index error; otherwise one bucket per path equal to the closed-form partition, their concatenation the input, files `0..c` opened where `c` is the last record's target, and the caller's list left as `paths[c..]` |
| Orchestrator.EstimateRecords | fastq_split.py:11-20 | the count is the number of records |
| Orchestrator.FastqSplit | fastq_split.py:98-123 | errors in source order (extension, zero division, empty plan); on success the plan is the planner's for the counted total, the files hold all records in order and their sizes add up to the count, and the list handed back is the plan's paths from the last opened file on |
| Orchestrator.ReturnedListLosesPoppedPaths | fastq_split.py:82 | 10 records of any recognised input into 3 files: quota 3, the writer ends on target 2, and the handed-back list holds only that target's path |
| Orchestrator.SampleThirdPath | fastq_split.py:50 | for `sample.fastq` into `out`, the path of target 2 is `out/sample_3.fastq` |
| Orchestrator.FastqSplitAllPaths | fastq_split.py:98-123 | the split handing back the whole planned list: the same errors in the same order as `fastq_split`; on success the plan is the planner's for the record count, the files hold the closed-form partition of the records and concatenate to them, and the list handed back is the whole plan, `nfiles` paths each resolving to the input's extension, including, with quota 0, paths of files the writer never opened |

## Left out

- Record parsing and serialisation (`dnaio`, `fastq_bytes`): records are an opaque type `R`. A file's content is modelled as the sequence of records written to it.
- Repeated paths in the writer's list: `xopen(..., "wb")` truncates a file opened a second time, so a bucket is a file's content only when the paths are distinct. `WriteRecords` treats each list position as its own file; `PlannedPathsDistinct` shows that the split's own paths are distinct.
- `file_to_fastq_records` belongs to `fastq_filter`, which is not part of this model. Both passes over the input are given the same finite record sequence.
- Opening, compressing and closing files through `xopen`, with `compression_level`, `threads` and `DEFAULT_COMPRESSION_LEVEL`: this is I/O in a foreign library. Opening a file is modelled only as logging its target index.
- The unused `filepath` parameter of the writer: it has no effect in the source.
- I/O failures and partially written files: this is filesystem state, not logic.
- `main`, argument parsing and `os.makedirs`: command-line glue.
- Output paths are built as plain strings. No path normalisation is modelled, so a directory part of the input path stays inside the stem, as in the source.

## Findings

| source | as written | input that shows it | evidently intended | confidence | as-written member | corrected member |
|---|---|---|---|---|---|---|
| fastq_split.py:82 | the writer pops the caller's path list in place at each rollover, and `fastq_split` returns that same list at line 123 | `sample.fastq` with 10 records, `nfiles = 3`, output directory `out`: the writer pops twice, so only `out/sample_3.fastq` comes back | return the whole planned list of `nfiles` paths: the returned name `subset_filepaths` is the full list `subset_program` built at lines 48-53, and the writer's pops are its own bookkeeping of the current file. `main` discards the value at line 153, so only callers of `fastq_split` are affected. With quota 0 this list also names files that are never opened, and so never created (2 records into 5 files opens only targets 0 and 1) | medium, not executed | Orchestrator.ReturnedListLosesPoppedPaths | Orchestrator.FastqSplitAllPaths |

=== FILE: decimal.dfy ===
/** Decimal rendering of natural numbers, as Python's `str` (and an f-string
    field) writes a non-negative int, together with its inverse. */
module Decimal {

  predicate IsDigit(c: char) {
    '0' <= c <= '9'
  }

  predicate AllDigits(s: string) {
    forall i :: 0 <= i < |s| ==> IsDigit(s[i])
  }

  function DigitChar(d: nat): (c: char)
    requires d < 10
    ensures IsDigit(c)
  {
    ['0', '1', '2', '3', '4', '5', '6', '7', '8', '9'][d]
  }

  function DigitValue(c: char): (d: nat)
    requires IsDigit(c)
    ensures d < 10
  {
    (c as int - '0' as int) as nat
  }

  /** The shortest decimal numeral of `n`: no sign, no leading zero. */
  function Show(n: nat): (s: string)
    ensures 1 <= |s|
    ensures AllDigits(s)
    ensures |s| > 1 ==> s[0] != '0'
  {
    if n < 10 then [DigitChar(n)] else Show(n / 10) + [DigitChar(n % 10)]
  }

  /** The value of a numeral read most significant digit first. */
  function Parse(s: string): nat
    requires AllDigits(s)
  {
    if |s| == 0 then 0 else Parse(s[..|s| - 1]) * 10 + DigitValue(s[|s| - 1])
  }

  lemma {:induction false} ParseShow(n: nat)
    ensures Parse(Show(n)) == n
  {
    var s := Show(n);
    if n < 10 {
      assert s[..|s| - 1] == [];
    } else {
      assert s[..|s| - 1] == Show(n / 10);
      ParseShow(n / 10);
    }
  }

  /** Distinct numbers have distinct numerals. */
  lemma ShowInjective(m: nat, n: nat)
    requires Show(m) == Show(n)
    ensures m == n
  {
    ParseShow(m);
    ParseShow(n);
  }
}

=== FILE: extension.dfy ===
/** The extension resolver: a literal, case-sensitive suffix test against the
    four recognised FASTQ suffixes, checked in a fixed priority order. */
module ExtensionResolver {
  import opened Failures

  datatype Ext = FastqGz | Fastq | FqGz | Fq

  /** The suffix text of each recognised extension, without a leading dot. */
  function Suffix(e: Ext): string {
    match e
    case FastqGz => "fastq.gz"
    case Fastq => "fastq"
    case FqGz => "fq.gz"
    case Fq => "fq"
  }

  predicate EndsWith(s: string, suffix: string) {
    |suffix| <= |s| && s[|s| - |suffix|..] == suffix
  }

  /** A string ending in `a + b` also ends in `b`. */
  lemma EndsWithConcat(s: string, a: string, b: string)
    requires EndsWith(s, a + b)
    ensures EndsWith(s, b)
  {
    assert s[|s| - |b|..] == s[|s| - |a + b|..][|a|..];
  }

  /** If `s` ends in both `long` and `short`, then `long` ends in `short`. */
  lemma EndsWithBoth(s: string, long: string, short: string)
    requires EndsWith(s, long) && EndsWith(s, short) && |short| <= |long|
    ensures EndsWith(long, short)
  {
    assert long[|long| - |short|..] == s[|s| - |short|..];
  }

  /** No string ends in two different recognised suffixes, so the answer of
      the resolver does not depend on the order of its tests. */
  lemma SuffixesExclusive(s: string, e1: Ext, e2: Ext)
    requires EndsWith(s, Suffix(e1)) && EndsWith(s, Suffix(e2))
    ensures e1 == e2
  {
    if e1 != e2 {
      if |Suffix(e2)| <= |Suffix(e1)| {
        EndsWithBoth(s, Suffix(e1), Suffix(e2));
        NoSuffixEndsInAnother(e1, e2);
      } else {
        EndsWithBoth(s, Suffix(e2), Suffix(e1));
        NoSuffixEndsInAnother(e2, e1);
      }
    }
  }

  lemma NoSuffixEndsInAnother(e1: Ext, e2: Ext)
    requires e1 != e2
    ensures !EndsWith(Suffix(e1), Suffix(e2))
  {
    var a, b := Suffix(e1), Suffix(e2);
    if |b| <= |a| {
      // Every pair differs in the first or the last character of the
      // shorter suffix.
      assert a[|a| - |b|..][0] != b[0] || a[|a| - |b|..][|b| - 1] != b[|b| - 1];
    }
  }

  /** `determine_extention`: the one recognised suffix the path ends with,
      or `UnrecognizedExtension` when it ends with none of them. */
  function Resolve(path: string): (r: Result<Ext>)
    ensures r.Ok? ==> EndsWith(path, Suffix(r.value))
    ensures r.Err? <==> (forall e: Ext :: !EndsWith(path, Suffix(e)))
    ensures r.Err? ==> r.error == UnrecognizedExtension
  {
    if EndsWith(path, "fastq.gz") then Ok(FastqGz)
    else if EndsWith(path, "fastq") then Ok(Fastq)
    else if EndsWith(path, "fq.gz") then Ok(FqGz)
    else if EndsWith(path, "fq") then Ok(Fq)
    else
      assert forall e: Ext :: Suffix(e) in {"fastq.gz", "fastq", "fq.gz", "fq"};
      Err(UnrecognizedExtension)
  }

  /** The resolver answers `e` exactly when the path ends with the suffix of `e`. */
  lemma ResolveExact(path: string, e: Ext)
    ensures Resolve(path) == Ok(e) <==> EndsWith(path, Suffix(e))
  {
    if EndsWith(path, Suffix(e)) {
      var r := Resolve(path);
      assert r.Ok?;
      SuffixesExclusive(path, r.value, e);
    }
  }

  /** The test is on raw characters: no dot is needed before the suffix. */
  lemma NoDotNeeded()
    ensures Resolve("abcfastq") == Ok(Fastq)
  {
    var s := "abcfastq";
    assert s[3..] == "fastq";
    ResolveExact(s, Fastq);
  }

  /** Any text may precede the suffix. */
  lemma AnyTextBeforeSuffix()
    ensures Resolve("notfastq.gz") == Ok(FastqGz)
  {
    var s := "notfastq.gz";
    assert s[3..] == "fastq.gz";
    ResolveExact(s, FastqGz);
  }

  lemma CompressedSample()
    ensures Resolve("sample.fastq.gz") == Ok(FastqGz)
  {
    var s := "sample.fastq.gz";
    assert s[7..] == "fastq.gz";
    ResolveExact(s, FastqGz);
  }

  lemma ShortSample()
    ensures Resolve("sample.fq") == Ok(Fq)
  {
    var s := "sample.fq";
    assert s[7..] == "fq";
    ResolveExact(s, Fq);
  }

  /** Upper-case suffixes are not recognised. */
  lemma CaseSensitive()
    ensures Resolve("x.FQ") == Err(UnrecognizedExtension)
  {
    var s := "x.FQ";
    assert s[|s| - 2..][0] == 'F';
  }

  lemma UnknownSuffix()
    ensures Resolve("sample.txt") == Err(UnrecognizedExtension)
  {
    var s := "sample.txt";
    assert s[|s| - 2..][1] == 't';
    assert s[|s| - 5..][4] == 't';
  }
}

=== FILE: failures.dfy ===
/** The failures the splitter can raise, and a result type that carries them.
    Each constructor corresponds to a Python exception the core can raise. */
module Failures {

  datatype Error =
    | UnrecognizedExtension  // ValueError raised by the extension resolver
    | ZeroDivision           // ZeroDivisionError from `total_records // nfiles`
    | IndexOutOfRange        // IndexError from `subset_filepaths[0]` on an empty plan

  datatype Result<+T> = Ok(value: T) | Err(error: Error) {
    predicate IsFailure() {
      Err?
    }

    function PropagateFailure<U>(): Result<U>
      requires Err?
    {
      Err(error)
    }

    function Extract(): T
      requires Ok?
    {
      value
    }
  }
}

=== FILE: orchestrator.dfy ===
/** The split orchestrator: count the records, plan the partition, then
    stream the records through the partitioned writer. Both passes over the
    input are modelled as the same sequence of records. */
module Orchestrator {
  import opened Failures
  import opened ExtensionResolver
  import opened PartitionPlanner
  import opened PartitionedWriter

  /** What one split leaves behind: the list handed back to the caller, the
      plan it was made from, the records each planned file received and the
      indices of the files opened. */
  datatype Outcome<R> = Outcome(returned: seq<string>, plan: SplitPlan, files: seq<seq<R>>, opens: seq<nat>)

  /** `estimate_fastq_records`: one full pass that counts the records. */
  method EstimateRecords<R>(records: seq<R>) returns (count: nat)
    ensures count == |records|
  {
    count := 0;
    for i := 0 to |records|
      invariant count == i
    {
      count := count + 1;
    }
  }

  /** `fastq_split`. The list handed back is the plan's path list after the
      writer has popped a path off its front at each rollover: only the paths
      from the last opened file onwards. */
  method FastqSplit<R>(filepath: string, outputDir: string, nfiles: int, records: seq<R>)
    returns (res: Result<Outcome<R>>)
    ensures Resolve(filepath).Err? ==> res == Err(UnrecognizedExtension)
    ensures Resolve(filepath).Ok? && nfiles == 0 ==> res == Err(ZeroDivision)
    ensures Resolve(filepath).Ok? && nfiles < 0 ==> res == Err(IndexOutOfRange)
    ensures res.Ok? <==> Resolve(filepath).Ok? && nfiles > 0
    ensures res.Ok? ==> res.value.plan == Plan(filepath, outputDir, nfiles, |records|).value
    ensures res.Ok? ==> |res.value.files| == nfiles && |res.value.plan.paths| == nfiles
    ensures res.Ok? ==> Flatten(res.value.files) == records
    ensures res.Ok? ==> TotalSize(res.value.files) == |records|
    ensures res.Ok? ==> res.value.files == Reference(records, res.value.plan.quota, nfiles)
    ensures res.Ok? ==> var c := Cursor(|records|, res.value.plan.quota, nfiles);
                        res.value.opens == Indices(c + 1) && res.value.returned == res.value.plan.paths[c..]
  {
    var total := EstimateRecords(records);
    var plan :- Plan(filepath, outputDir, nfiles, total);
    var written :- WriteRecords(records, plan.paths, plan.quota);
    TotalSizeIsFlattenLength(written.buckets);
    return Ok(Outcome(written.remaining, plan, written.buckets, written.opens));
  }

  /** Ten records of any recognised input split three ways: the quota is 3,
      the writer ends on the third file, and the list handed back holds only
      that file's path. */
  lemma ReturnedListLosesPoppedPaths(filepath: string, outputDir: string)
    requires Resolve(filepath).Ok?
    ensures var ext := Resolve(filepath).value;
            var plan := Plan(filepath, outputDir, 3, 10).value;
            plan.quota == 3 && Cursor(10, plan.quota, 3) == 2 &&
            plan.paths[2..] == [OutputPath(outputDir, Stem(filepath, ext), 3, ext)]
  {
    var plan := Plan(filepath, outputDir, 3, 10).value;
    PlannedPath(filepath, outputDir, 3, 10, 2);
    assert plan.paths[2..] == [plan.paths[2]];
  }

  /** For `sample.fastq` split into `out`, that one path is `out/sample_3.fastq`. */
  lemma SampleThirdPath()
    ensures OutputPath("out", Stem("sample.fastq", Fastq), 3, Fastq) == "out/sample_3.fastq"
  {
    assert Stem("sample.fastq", Fastq) == "sample";
    assert Decimal.Show(3) == "3";
    assert PathPrefix("out", "sample") == "out/sample_";
    assert "." + Suffix(Fastq) == ".fastq";
    assert "out/sample_" + "3" + ".fastq" == "out/sample_3.fastq";
  }

  /** `fastq_split` handing back the whole planned list: the same split,
      returning all `nfiles` planned paths. With quota 0 and more than two
      files the list includes paths of files the writer never opens. */
  method FastqSplitAllPaths<R>(filepath: string, outputDir: string, nfiles: int, records: seq<R>)
    returns (res: Result<Outcome<R>>)
    ensures Resolve(filepath).Err? ==> res == Err(UnrecognizedExtension)
    ensures Resolve(filepath).Ok? && nfiles == 0 ==> res == Err(ZeroDivision)
    ensures Resolve(filepath).Ok? && nfiles < 0 ==> res == Err(IndexOutOfRange)
    ensures res.Ok? <==> Resolve(filepath).Ok? && nfiles > 0
    ensures res.Ok? ==> res.value.plan == Plan(filepath, outputDir, nfiles, |records|).value
    ensures res.Ok? ==> res.value.files == Reference(records, res.value.plan.quota, nfiles)
    ensures res.Ok? ==> res.value.opens == Indices(Cursor(|records|, res.value.plan.quota, nfiles) + 1)
    ensures res.Ok? ==> res.value.returned == res.value.plan.paths
    ensures res.Ok? ==> |res.value.returned| == nfiles
    ensures res.Ok? ==> Flatten(res.value.files) == records
    ensures res.Ok? ==> forall i :: 0 <= i < |res.value.returned| ==>
                          Resolve(res.value.returned[i]) == Resolve(filepath)
  {
    var total := EstimateRecords(records);
    var plan :- Plan(filepath, outputDir, nfiles, total);
    var written :- WriteRecords(records, plan.paths, plan.quota);
    forall i | 0 <= i < |plan.paths|
      ensures Resolve(plan.paths[i]) == Resolve(filepath)
    {
      PlannedPathsKeepExtension(filepath, outputDir, nfiles, total, i);
    }
    return Ok(Outcome(plan.paths, plan, written.buckets, written.opens));
  }
}

=== FILE: planner.dfy ===
/** The partition planner: from the input path, the output directory, the
    number of files and the record count, the list of output paths and the
    per-file quota. */
module PartitionPlanner {
  import opened Failures
  import Decimal
  import opened ExtensionResolver

  /** What `subset_program` returns: the planned output paths, in order, and
      the number of records each file receives before rollover. */
  datatype SplitPlan = SplitPlan(paths: seq<string>, quota: int)

  /** Python's `//`: the quotient rounded towards minus infinity. */
  function FloorDiv(a: int, b: int): (q: int)
    requires b != 0
    ensures b > 0 ==> b * q <= a < b * q + b
    ensures b < 0 ==> b * q + b < a <= b * q
  {
    if b > 0 then a / b else (-a) / (-b)
  }

  /** Python's `range(n)` has `n` elements when `n` is positive, none otherwise. */
  function RangeLength(n: int): nat {
    if n > 0 then n else 0
  }

  /** `filepath[: -len(ext) - 1]`: the path without its last `|ext| + 1`
      characters, clamped to the empty string as Python slicing does. The
      character cut before the suffix is assumed to be the dot but never checked. */
  function Stem(path: string, e: Ext): (stem: string)
    ensures stem <= path
    ensures |path| > |Suffix(e)| + 1 ==> |stem| + 1 + |Suffix(e)| == |path|
    ensures |path| <= |Suffix(e)| + 1 ==> stem == []
  {
    var keep := |path| - |Suffix(e)| - 1;
    if keep <= 0 then [] else path[..keep]
  }

  /** The prefix every output path shares: `{output_dir}/{stem}_`. */
  function PathPrefix(outputDir: string, stem: string): string {
    outputDir + "/" + stem + "_"
  }

  /** `f"{output_dir}/{stem}_{k}.{ext}"`. */
  function OutputPath(outputDir: string, stem: string, k: nat, e: Ext): (p: string)
    ensures |PathPrefix(outputDir, stem)| < |p|
    ensures p[..|PathPrefix(outputDir, stem)|] == PathPrefix(outputDir, stem)
    ensures EndsWith(p, "." + Suffix(e))
    ensures Resolve(p) == Ok(e)
  {
    var head := PathPrefix(outputDir, stem);
    var p := head + Decimal.Show(k) + ("." + Suffix(e));
    assert p == head + (Decimal.Show(k) + ("." + Suffix(e)));
    DottedSuffix(head + Decimal.Show(k), e);
    p
  }

  /** A name ending in `.ext` resolves to `ext`, whatever comes before. */
  lemma DottedSuffix(head: string, e: Ext)
    ensures EndsWith(head + ("." + Suffix(e)), "." + Suffix(e))
    ensures Resolve(head + ("." + Suffix(e))) == Ok(e)
  {
    var p := head + ("." + Suffix(e));
    assert p[|p| - |"." + Suffix(e)|..] == "." + Suffix(e);
    EndsWithConcat(p, ".", Suffix(e));
    ResolveExact(p, e);
  }

  /** `subset_program`. The extension is resolved first, so an unrecognised
      suffix wins over a zero file count; a negative count plans no paths. */
  function Plan(filepath: string, outputDir: string, nfiles: int, total: nat): (r: Result<SplitPlan>)
    ensures Resolve(filepath).Err? ==> r == Err(UnrecognizedExtension)
    ensures Resolve(filepath).Ok? && nfiles == 0 ==> r == Err(ZeroDivision)
    ensures r.Ok? <==> Resolve(filepath).Ok? && nfiles != 0
    ensures r.Ok? ==> |r.value.paths| == RangeLength(nfiles)
    ensures r.Ok? && nfiles > 0 ==>
              r.value.quota * nfiles <= total < (r.value.quota + 1) * nfiles
  {
    match Resolve(filepath)
    case Err(e) => Err(e)
    case Ok(ext) =>
      if nfiles == 0 then Err(ZeroDivision)
      else
        var stem := Stem(filepath, ext);
        var paths := seq(RangeLength(nfiles), (i: nat) => OutputPath(outputDir, stem, i + 1, ext));
        Ok(SplitPlan(paths, FloorDiv(total, nfiles)))
  }

  /** A single file takes the whole input as its quota. */
  lemma SingleFileQuota(filepath: string, outputDir: string, total: nat)
    requires Resolve(filepath).Ok?
    ensures Plan(filepath, outputDir, 1, total).Ok?
    ensures Plan(filepath, outputDir, 1, total).value.quota == total
    ensures |Plan(filepath, outputDir, 1, total).value.paths| == 1
  {
  }

  /** Cutting the stem off `stem.ext` gives back `stem`. */
  lemma StemOfDottedPath(stem: string, e: Ext)
    ensures Stem(stem + "." + Suffix(e), e) == stem
  {
    var path := stem + "." + Suffix(e);
    if |stem| > 0 {
      assert path[..|stem|] == stem;
    }
  }

  /** Without a dot, the character just before the suffix is cut as well. */
  lemma StemWithoutDot()
    ensures Stem("abcfastq", Fastq) == "ab"
  {
  }

  /** A path that is only a suffix has an empty stem. */
  lemma StemOfBareSuffix(e: Ext)
    ensures Stem(Suffix(e), e) == ""
  {
  }

  /** Every output path ends in `.ext` and resolves to the input's extension. */
  lemma PlannedPathsKeepExtension(filepath: string, outputDir: string, nfiles: int, total: nat, i: nat)
    requires Plan(filepath, outputDir, nfiles, total).Ok?
    requires i < |Plan(filepath, outputDir, nfiles, total).value.paths|
    ensures EndsWith(Plan(filepath, outputDir, nfiles, total).value.paths[i], "." + Suffix(Resolve(filepath).value))
    ensures Resolve(Plan(filepath, outputDir, nfiles, total).value.paths[i]) == Resolve(filepath)
  {
    PlannedPath(filepath, outputDir, nfiles, total, i);
  }

  /** The text between `{output_dir}/{stem}_` and `.ext` in the path at
      index `i` is a numeral that reads back as `i + 1`. */
  lemma PlannedPathNumbering(filepath: string, outputDir: string, nfiles: int, total: nat, i: nat)
    requires Plan(filepath, outputDir, nfiles, total).Ok?
    requires i < |Plan(filepath, outputDir, nfiles, total).value.paths|
    ensures var ext := Resolve(filepath).value;
            var head := PathPrefix(outputDir, Stem(filepath, ext));
            var p := Plan(filepath, outputDir, nfiles, total).value.paths[i];
            var tail := "." + Suffix(ext);
            |head| + |tail| < |p| &&
            p[..|head|] == head &&
            p[|p| - |tail|..] == tail &&
            Decimal.AllDigits(p[|head|..|p| - |tail|]) &&
            (|p| - |tail| - |head| > 1 ==> p[|head|] != '0') &&
            Decimal.Parse(p[|head|..|p| - |tail|]) == i + 1
  {
    var ext := Resolve(filepath).value;
    var head := PathPrefix(outputDir, Stem(filepath, ext));
    var tail := "." + Suffix(ext);
    var d := Decimal.Show(i + 1);
    var p := Plan(filepath, outputDir, nfiles, total).value.paths[i];
    assert p == head + d + tail;
    assert p[|head|..|p| - |tail|] == d;
    Decimal.ParseShow(i + 1);
  }

  lemma CancelAround(h: string, a: string, b: string, t: string)
    requires h + a + t == h + b + t
    ensures a == b
  {
    var s := h + a + t;
    assert |a| == |b|;
    assert a == s[|h|..|h| + |a|];
  }

  /** The planned path at index `i` is the `i + 1`-th output name. */
  lemma PlannedPath(filepath: string, outputDir: string, nfiles: int, total: nat, i: nat)
    requires Plan(filepath, outputDir, nfiles, total).Ok?
    requires i < |Plan(filepath, outputDir, nfiles, total).value.paths|
    ensures Resolve(filepath).Ok?
    ensures Plan(filepath, outputDir, nfiles, total).value.paths[i]
         == OutputPath(outputDir, Stem(filepath, Resolve(filepath).value), i + 1, Resolve(filepath).value)
  {
  }

  /** Output paths built from different numbers differ. */
  lemma OutputPathInjective(outputDir: string, stem: string, e: Ext, k1: nat, k2: nat)
    requires OutputPath(outputDir, stem, k1, e) == OutputPath(outputDir, stem, k2, e)
    ensures k1 == k2
  {
    CancelAround(PathPrefix(outputDir, stem), Decimal.Show(k1), Decimal.Show(k2), "." + Suffix(e));
    Decimal.ShowInjective(k1, k2);
  }

  /** No two planned files share a path. */
  lemma PlannedPathsDistinct(filepath: string, outputDir: string, nfiles: int, total: nat, i: nat, j: nat)
    requires Plan(filepath, outputDir, nfiles, total).Ok?
    requires i < j < |Plan(filepath, outputDir, nfiles, total).value.paths|
    ensures Plan(filepath, outputDir, nfiles, total).value.paths[i] != Plan(filepath, outputDir, nfiles, total).value.paths[j]
  {
    var ext := Resolve(filepath).value;
    var stem := Stem(filepath, ext);
    PlannedPath(filepath, outputDir, nfiles, total, i);
    PlannedPath(filepath, outputDir, nfiles, total, j);
    if OutputPath(outputDir, stem, i + 1, ext) == OutputPath(outputDir, stem, j + 1, ext) {
      OutputPathInjective(outputDir, stem, ext, i + 1, j + 1);
    }
  }
}

=== FILE: writer.dfy ===
/** The partitioned writer: a rollover state machine that streams records
    into a fixed, ordered list of targets. Records are opaque values of type
    `R`; opening a target is recorded as the event of appending its index to
    `opens`; the bytes written to a target are modelled as its bucket. */
module PartitionedWriter {
  import opened Failures

  /** The writer between two records: the index of the current target (the
      number of targets popped off the path list so far), the number of
      records the current target has received, the records each target has
      received, and the indices of the targets opened, in opening order. */
  datatype State<R> = State(cursor: nat, written: nat, buckets: seq<seq<R>>, opens: seq<nat>)

  /** The result handed back to the caller: one bucket per planned target,
      the opening events, and the caller's path list as the writer left it. */
  datatype Written<R> = Written(buckets: seq<seq<R>>, opens: seq<nat>, remaining: seq<string>)

  /** The indices `0, 1, ..., n - 1` in order. */
  function Indices(n: nat): (s: seq<nat>)
    ensures |s| == n
    ensures forall i :: 0 <= i < n ==> s[i] == i
  {
    seq(n, i requires 0 <= i => i)
  }

  /** The records of all buckets, in target order. */
  function Flatten<R>(buckets: seq<seq<R>>): seq<R> {
    if |buckets| == 0 then [] else Flatten(buckets[..|buckets| - 1]) + buckets[|buckets| - 1]
  }

  function TotalSize<R>(buckets: seq<seq<R>>): nat {
    if |buckets| == 0 then 0 else TotalSize(buckets[..|buckets| - 1]) + |buckets[|buckets| - 1]|
  }

  /** Summing the bucket sizes counts every record written exactly once. */
  lemma {:induction false} TotalSizeIsFlattenLength<R>(buckets: seq<seq<R>>)
    ensures TotalSize(buckets) == |Flatten(buckets)|
  {
    if |buckets| > 0 {
      TotalSizeIsFlattenLength(buckets[..|buckets| - 1]);
    }
  }

  /** The shape every reachable state has over `n` targets: one bucket per
      target, the cursor on a target, targets `0..cursor` opened in order and
      nothing else, the counter equal to the current bucket's size, and every
      target past the cursor still empty. */
  predicate Valid<R>(s: State<R>, n: nat) {
    && |s.buckets| == n
    && s.cursor < n
    && s.opens == Indices(s.cursor + 1)
    && s.written == |s.buckets[s.cursor]|
    && forall j :: s.cursor < j < n ==> s.buckets[j] == []
  }

  /** Before the first record: target 0 is opened and nothing is written. */
  function Start<R>(n: nat): (s: State<R>)
    requires n >= 1
    ensures Valid(s, n)
    ensures s.cursor == 0 && s.written == 0 && s.opens == [0]
    ensures Flatten(s.buckets) == []
  {
    var s := State(0, 0, seq(n, _ => []), [0]);
    FlattenAllEmpty(s.buckets);
    s
  }

  lemma {:induction false} FlattenAllEmpty<R>(buckets: seq<seq<R>>)
    requires forall j :: 0 <= j < |buckets| ==> buckets[j] == []
    ensures Flatten(buckets) == []
  {
    if |buckets| > 0 {
      FlattenAllEmpty(buckets[..|buckets| - 1]);
    }
  }

  /** The rollover test made before each write: the current target has
      received exactly the quota and more than one target is left on the
      path list (the list holds the targets `cursor..n - 1`). */
  predicate RollsOver<R>(s: State<R>, quota: int, n: nat)
    ensures RollsOver(s, quota, n) ==> s.cursor + 1 < n
    ensures quota < 0 || n <= 1 ==> !RollsOver(s, quota, n)
    ensures s.written != quota ==> !RollsOver(s, quota, n)
  {
    s.written == quota && n - s.cursor > 1
  }

  /** Appending to the bucket at `c` when every later bucket is empty
      appends to the concatenation of all buckets. */
  lemma {:induction false} FlattenAppendAt<R>(buckets: seq<seq<R>>, c: nat, r: R)
    requires c < |buckets|
    requires forall j :: c < j < |buckets| ==> buckets[j] == []
    ensures Flatten(buckets[c := buckets[c] + [r]]) == Flatten(buckets) + [r]
  {
    var last := |buckets| - 1;
    var updated := buckets[c := buckets[c] + [r]];
    if c == last {
      assert updated[..last] == buckets[..last];
    } else {
      assert updated[..last] == buckets[..last][c := buckets[c] + [r]];
      FlattenAppendAt(buckets[..last], c, r);
    }
  }

  /** The rollover made before a write when it is due: close the current
      target, pop it, open the next one and reset the counter. */
  function Roll<R>(s: State<R>, quota: int, n: nat): (t: State<R>)
    requires Valid(s, n)
    ensures Valid(t, n)
    ensures t.buckets == s.buckets
    ensures t.cursor == if RollsOver(s, quota, n) then s.cursor + 1 else s.cursor
  {
    if RollsOver(s, quota, n) then
      var t := State(s.cursor + 1, 0, s.buckets, s.opens + [s.cursor + 1]);
      assert t.opens == Indices(t.cursor + 1);
      t
    else s
  }

  /** The write itself: the record goes to the current target, and is counted. */
  function Put<R>(s: State<R>, r: R, n: nat): (t: State<R>)
    requires Valid(s, n)
    ensures Valid(t, n)
    ensures t.cursor == s.cursor && t.opens == s.opens
    ensures t.buckets[s.cursor] == s.buckets[s.cursor] + [r]
    ensures forall j :: 0 <= j < n && j != s.cursor ==> t.buckets[j] == s.buckets[j]
    ensures Flatten(t.buckets) == Flatten(s.buckets) + [r]
  {
    FlattenAppendAt(s.buckets, s.cursor, r);
    State(s.cursor, s.written + 1, s.buckets[s.cursor := s.buckets[s.cursor] + [r]], s.opens)
  }

  /** One record: roll over if due, then write the record to the current
      target and count it. */
  function Step<R>(s: State<R>, r: R, quota: int, n: nat): (s': State<R>)
    requires Valid(s, n)
    ensures Valid(s', n)
    ensures Flatten(s'.buckets) == Flatten(s.buckets) + [r]
  {
    Put(Roll(s, quota, n), r, n)
  }

  /** The state after the records in order, starting from `Start(n)`. */
  function Run<R>(records: seq<R>, quota: int, n: nat): (s: State<R>)
    requires n >= 1
    ensures Valid(s, n)
    ensures Flatten(s.buckets) == records
  {
    if |records| == 0 then Start(n)
    else
      var prefix := records[..|records| - 1];
      assert records == prefix + [records[|records| - 1]];
      Step(Run(prefix, quota, n), records[|records| - 1], quota, n)
  }

  /** Running one more record is one more step. */
  lemma RunSnoc<R>(records: seq<R>, i: nat, quota: int, n: nat)
    requires n >= 1 && i < |records|
    ensures Run(records[..i + 1], quota, n) == Step(Run(records[..i], quota, n), records[i], quota, n)
  {
    assert records[..i + 1][..i] == records[..i];
  }

  // ---------------------------------------------------------------------
  // Closed form: where each record lands, independently of the machine.
  // ---------------------------------------------------------------------

  function Min(a: int, b: int): int {
    if a <= b then a else b
  }

  /** The target that receives record `k` (counting from 0). With a
      positive quota, each target but the last takes `quota` consecutive
      records and the last takes the rest. With quota 0 the very first
      record already finds its target full, so everything goes to target 1
      (if there is one). A negative quota is never met, so everything stays
      in target 0. */
  function Target(k: nat, quota: int, n: nat): (t: nat)
    requires n >= 1
    ensures t < n
  {
    if quota >= 1 then Min(k / quota, n - 1)
    else if quota == 0 then Min(1, n - 1)
    else 0
  }

  lemma DivLess(a: nat, q: int, j: nat)
    requires q >= 1
    ensures a / q < j <==> a < j * q
  {
    var d := a / q;
    assert a == q * d + a % q;
    if d < j {
      assert q * (d + 1) <= q * j;
    } else {
      assert q * d >= q * j;
    }
  }

  /** Later records never go to earlier targets. */
  lemma TargetMonotone(k: nat, k2: nat, quota: int, n: nat)
    requires n >= 1 && k <= k2
    ensures Target(k, quota, n) <= Target(k2, quota, n)
  {
    if quota >= 1 && k2 / quota < k / quota {
      DivLess(k2, quota, k / quota);
      DivLess(k, quota, k / quota);
    }
  }

  /** How many of the first `m` records go to targets before `j`. */
  function Bound(j: nat, m: nat, quota: int, n: nat): (b: nat)
    requires n >= 1
    ensures b <= m
    ensures j == 0 ==> b == 0
    ensures j >= n ==> b == m
  {
    if m == 0 then 0
    else Bound(j, m - 1, quota, n) + (if Target(m - 1, quota, n) < j then 1 else 0)
  }

  lemma {:induction false} BoundMonotone(j: nat, j2: nat, m: nat, quota: int, n: nat)
    requires n >= 1 && j <= j2
    ensures Bound(j, m, quota, n) <= Bound(j2, m, quota, n)
  {
    if m > 0 {
      BoundMonotone(j, j2, m - 1, quota, n);
    }
  }

  /** When the last of the first `m` records goes before target `j`, all of them do. */
  lemma {:induction false} BoundFull(j: nat, m: nat, quota: int, n: nat)
    requires n >= 1
    requires m == 0 || Target(m - 1, quota, n) < j
    ensures Bound(j, m, quota, n) == m
  {
    if m > 1 {
      TargetMonotone(m - 2, m - 1, quota, n);
      BoundFull(j, m - 1, quota, n);
    }
  }

  /** When record 0 goes to target `j` or later, so do all others. */
  lemma {:induction false} BoundNone(j: nat, m: nat, quota: int, n: nat)
    requires n >= 1
    requires Target(0, quota, n) >= j
    ensures Bound(j, m, quota, n) == 0
  {
    if m > 0 {
      TargetMonotone(0, m - 1, quota, n);
      BoundNone(j, m - 1, quota, n);
    }
  }

  /** With a positive quota, the targets before `j` take `j * quota`
      records, or all of them when there are fewer. */
  lemma {:induction false} BoundPositiveQuota(j: nat, m: nat, quota: int, n: nat)
    requires n >= 1 && quota >= 1 && j < n
    ensures Bound(j, m, quota, n) == Min(j * quota, m)
  {
    if m > 0 {
      BoundPositiveQuota(j, m - 1, quota, n);
      DivLess(m - 1, quota, j);
    }
  }

  /** The records target `j` receives: a contiguous slice of the input. */
  function Bucket<R>(records: seq<R>, j: nat, quota: int, n: nat): seq<R>
    requires n >= 1
  {
    BoundMonotone(j, j + 1, |records|, quota, n);
    records[Bound(j, |records|, quota, n)..Bound(j + 1, |records|, quota, n)]
  }

  /** The reference partition: one bucket per target. */
  function Reference<R>(records: seq<R>, quota: int, n: nat): (b: seq<seq<R>>)
    requires n >= 1
    ensures |b| == n
    ensures forall j :: 0 <= j < n ==> b[j] == Bucket(records, j, quota, n)
  {
    seq(n, (j: nat) requires j < n => Bucket(records, j, quota, n))
  }

  lemma {:induction false} ReferencePrefix<R>(records: seq<R>, quota: int, n: nat, m: nat)
    requires n >= 1 && m <= n
    ensures Flatten(Reference(records, quota, n)[..m]) == records[..Bound(m, |records|, quota, n)]
  {
    if m > 0 {
      var ref := Reference(records, quota, n);
      ReferencePrefix(records, quota, n, m - 1);
      FlattenPrefixStep(ref, m);
      BoundMonotone(m - 1, m, |records|, quota, n);
      SliceConcat(records, Bound(m - 1, |records|, quota, n), Bound(m, |records|, quota, n));
    }
  }

  lemma FlattenPrefixStep<R>(buckets: seq<seq<R>>, m: nat)
    requires 0 < m <= |buckets|
    ensures Flatten(buckets[..m]) == Flatten(buckets[..m - 1]) + buckets[m - 1]
  {
    assert buckets[..m][..m - 1] == buckets[..m - 1];
  }

  /** Two adjacent slices join into one. */
  lemma SliceConcat<R>(s: seq<R>, a: nat, b: nat)
    requires a <= b <= |s|
    ensures s[..a] + s[a..b] == s[..b]
  {
  }

  /** The reference partition keeps every record, once, in input order. */
  lemma ReferenceFlatten<R>(records: seq<R>, quota: int, n: nat)
    requires n >= 1
    ensures Flatten(Reference(records, quota, n)) == records
  {
    var ref := Reference(records, quota, n);
    ReferencePrefix(records, quota, n, n);
    assert ref[..n] == ref;
  }

  /** Record `k` sits in the bucket of `Target(k)`, at its offset within that slice. */
  lemma RecordPlacement<R>(records: seq<R>, quota: int, n: nat, k: nat)
    requires n >= 1 && k < |records|
    ensures var t := Target(k, quota, n);
            var lo := Bound(t, |records|, quota, n);
            lo <= k < lo + |Reference(records, quota, n)[t]| &&
            Reference(records, quota, n)[t][k - lo] == records[k]
  {
    var t := Target(k, quota, n);
    var m := |records|;
    BoundSplit(t, k, m, quota, n);
    BoundFull(t + 1, k + 1, quota, n);
    BoundGrows(t + 1, k + 1, m, quota, n);
    BoundMonotone(t, t + 1, m, quota, n);
  }

  /** Past the first record at or after target `j`, the count of records
      before `j` no longer grows. */
  lemma {:induction false} BoundSplit(j: nat, k: nat, m: nat, quota: int, n: nat)
    requires n >= 1 && k < m && Target(k, quota, n) >= j
    ensures Bound(j, m, quota, n) == Bound(j, k, quota, n)
    ensures Bound(j, k, quota, n) <= k
  {
    if m > k + 1 {
      TargetMonotone(k, m - 1, quota, n);
      BoundSplit(j, k, m - 1, quota, n);
    }
  }

  lemma {:induction false} BoundGrows(j: nat, m: nat, m2: nat, quota: int, n: nat)
    requires n >= 1 && m <= m2
    ensures Bound(j, m, quota, n) <= Bound(j, m2, quota, n)
  {
    if m < m2 {
      BoundGrows(j, m, m2 - 1, quota, n);
    }
  }

  // ---------------------------------------------------------------------
  // The machine agrees with the closed form.
  // ---------------------------------------------------------------------

  /** The current target once `m` records are written: target 0 before the
      first record, otherwise the target of the last record. */
  function Cursor(m: nat, quota: int, n: nat): (c: nat)
    requires n >= 1
    ensures c < n
  {
    if m == 0 then 0 else Target(m - 1, quota, n)
  }

  /** The state the closed form predicts after `records`. */
  function Expected<R>(records: seq<R>, quota: int, n: nat): (s: State<R>)
    requires n >= 1
    ensures Valid(s, n)
  {
    var m := |records|;
    var c := Cursor(m, quota, n);
    var s := State(c, m - Bound(c, m, quota, n), Reference(records, quota, n), Indices(c + 1));
    ExpectedIsValid(records, quota, n);
    s
  }

  lemma ExpectedIsValid<R>(records: seq<R>, quota: int, n: nat)
    requires n >= 1
    ensures var m := |records|;
            var c := Cursor(m, quota, n);
            Valid(State(c, m - Bound(c, m, quota, n), Reference(records, quota, n), Indices(c + 1)), n)
  {
    var m := |records|;
    var c := Cursor(m, quota, n);
    var ref := Reference(records, quota, n);
    BoundFull(c + 1, m, quota, n);
    forall j | c < j < n
      ensures ref[j] == []
    {
      BoundFull(j, m, quota, n);
      BoundFull(j + 1, m, quota, n);
    }
  }

  /** The rollover test, asked of the predicted state before record `m`,
      moves the writer exactly to the target of record `m`. */
  lemma TargetStep(m: nat, quota: int, n: nat)
    requires n >= 1
    ensures var c := Cursor(m, quota, n);
            var rolls := m - Bound(c, m, quota, n) == quota && n - c > 1;
            Target(m, quota, n) == if rolls then c + 1 else c
  {
    if quota >= 1 {
      if m > 0 {
        TargetStepPositive(m, quota, n);
      }
    } else if quota == 0 && n >= 2 && m > 0 {
      BoundNone(1, m, quota, n);
    }
  }

  lemma TargetStepPositive(m: nat, quota: int, n: nat)
    requires n >= 1 && quota >= 1 && m > 0
    ensures var c := Target(m - 1, quota, n);
            var rolls := m - Bound(c, m, quota, n) == quota && n - c > 1;
            Target(m, quota, n) == if rolls then c + 1 else c
  {
    var q := quota;
    var c := Target(m - 1, q, n);
    BoundPositiveQuota(c, m, q, n);
    DivLess(m - 1, q, c);
    assert Bound(c, m, q, n) == c * q;
    if c == n - 1 {
      DivLess(m, q, c);
    } else {
      DivNext(m, q, c);
    }
  }

  /** Where the record after a block boundary lands: `a - 1` lies in block
      `c`, so `a` is in block `c + 1` exactly when it starts that block. */
  lemma DivNext(a: nat, q: int, c: nat)
    requires q >= 1 && a >= 1 && (a - 1) / q == c
    ensures c * q <= a - 1
    ensures a / q == if a - c * q == q then c + 1 else c
  {
    var r := (a - 1) % q;
    assert a - 1 == c * q + r;
    if r + 1 == q {
      DivUnique(a, q, c + 1, 0);
    } else {
      DivUnique(a, q, c, r + 1);
    }
  }

  lemma DivUnique(a: nat, q: int, k: nat, s: nat)
    requires q >= 1 && s < q && a == k * q + s
    ensures a / q == k
  {
    DivLess(a, q, k);
    DivLess(a, q, k + 1);
    assert (k + 1) * q == k * q + q;
  }

  lemma BucketStep<R>(records: seq<R>, r: R, j: nat, quota: int, n: nat)
    requires n >= 1
    ensures Bucket(records + [r], j, quota, n)
         == if j == Target(|records|, quota, n) then Bucket(records, j, quota, n) + [r]
            else Bucket(records, j, quota, n)
  {
    var m := |records|;
    var t := Target(m, quota, n);
    if j < t {
      BucketStepBefore(records, r, j, quota, n);
    } else if j == t {
      BucketStepAt(records, r, j, quota, n);
    } else {
      BucketStepAfter(records, r, j, quota, n);
    }
  }

  lemma BucketStepBefore<R>(records: seq<R>, r: R, j: nat, quota: int, n: nat)
    requires n >= 1 && j < Target(|records|, quota, n)
    ensures Bucket(records + [r], j, quota, n) == Bucket(records, j, quota, n)
  {
    var m := |records|;
    BoundMonotone(j, j + 1, m, quota, n);
    var lo, hi := Bound(j, m, quota, n), Bound(j + 1, m, quota, n);
    assert Bound(j, m + 1, quota, n) == lo;
    assert Bound(j + 1, m + 1, quota, n) == hi;
    assert (records + [r])[lo..hi] == records[lo..hi];
  }

  lemma BucketStepAt<R>(records: seq<R>, r: R, j: nat, quota: int, n: nat)
    requires n >= 1 && j == Target(|records|, quota, n)
    ensures Bucket(records + [r], j, quota, n) == Bucket(records, j, quota, n) + [r]
  {
    var m := |records|;
    if m > 0 {
      TargetMonotone(m - 1, m, quota, n);
    }
    BoundFull(j + 1, m, quota, n);
    var lo := Bound(j, m, quota, n);
    assert Bound(j, m + 1, quota, n) == lo;
    assert Bound(j + 1, m + 1, quota, n) == m + 1;
    assert (records + [r])[lo..m + 1] == records[lo..m] + [r];
  }

  lemma BucketStepAfter<R>(records: seq<R>, r: R, j: nat, quota: int, n: nat)
    requires n >= 1 && j > Target(|records|, quota, n)
    ensures Bucket(records + [r], j, quota, n) == [] == Bucket(records, j, quota, n)
  {
    var m := |records|;
    if m > 0 {
      TargetMonotone(m - 1, m, quota, n);
    }
    BoundFull(j, m, quota, n);
    BoundFull(j + 1, m, quota, n);
    assert Bound(j, m + 1, quota, n) == m + 1;
    assert Bound(j + 1, m + 1, quota, n) == m + 1;
  }

  lemma StepMatches<R>(records: seq<R>, r: R, quota: int, n: nat)
    requires n >= 1
    ensures Step(Expected(records, quota, n), r, quota, n) == Expected(records + [r], quota, n)
  {
    StepCursor(records, r, quota, n);
    StepBuckets(records, r, quota, n);
  }

  /** After one more record both sides sit on the new record's target. */
  lemma StepCursor<R>(records: seq<R>, r: R, quota: int, n: nat)
    requires n >= 1
    ensures Step(Expected(records, quota, n), r, quota, n).cursor == Target(|records|, quota, n)
    ensures Expected(records + [r], quota, n).cursor == Target(|records|, quota, n)
  {
    var m := |records|;
    var e := Expected(records, quota, n);
    assert e.cursor == Cursor(m, quota, n);
    assert e.written == m - Bound(e.cursor, m, quota, n);
    assert Step(e, r, quota, n).cursor == Roll(e, quota, n).cursor;
    TargetStep(m, quota, n);
  }

  lemma StepBuckets<R>(records: seq<R>, r: R, quota: int, n: nat)
    requires n >= 1
    ensures Step(Expected(records, quota, n), r, quota, n).buckets == Expected(records + [r], quota, n).buckets
  {
    var s := Step(Expected(records, quota, n), r, quota, n);
    var e' := Expected(records + [r], quota, n);
    StepCursor(records, r, quota, n);
    forall j | 0 <= j < n
      ensures s.buckets[j] == e'.buckets[j]
    {
      BucketStep(records, r, j, quota, n);
    }
  }

  /** The rollover machine and the closed form agree on every input. */
  lemma {:induction false} RunMatchesReference<R>(records: seq<R>, quota: int, n: nat)
    requires n >= 1
    ensures Run(records, quota, n) == Expected(records, quota, n)
  {
    if |records| == 0 {
      NoRecordsMatch(records, quota, n);
    } else {
      var prefix := records[..|records| - 1];
      var r := records[|records| - 1];
      RunMatchesReference(prefix, quota, n);
      StepMatches(prefix, r, quota, n);
      SplitLast(records);
    }
  }

  /** A non-empty sequence is its front followed by its last element. */
  lemma SplitLast<R>(records: seq<R>)
    requires |records| > 0
    ensures records[..|records| - 1] + [records[|records| - 1]] == records
  {
  }

  lemma NoRecordsMatch<R>(records: seq<R>, quota: int, n: nat)
    requires n >= 1 && records == []
    ensures Run(records, quota, n) == Expected(records, quota, n)
  {
    assert Run(records, quota, n).buckets == Expected(records, quota, n).buckets;
  }

  /** The machine's buckets, cursor and opening events, field by field. */
  lemma RunFields<R>(records: seq<R>, quota: int, n: nat)
    requires n >= 1
    ensures Run(records, quota, n).buckets == Reference(records, quota, n)
    ensures Run(records, quota, n).cursor == Cursor(|records|, quota, n)
    ensures Run(records, quota, n).opens == Indices(Cursor(|records|, quota, n) + 1)
  {
    RunMatchesReference(records, quota, n);
  }

  lemma BucketSize<R>(records: seq<R>, j: nat, quota: int, n: nat)
    requires n >= 1
    ensures Bound(j, |records|, quota, n) <= Bound(j + 1, |records|, quota, n)
    ensures |Bucket(records, j, quota, n)| == Bound(j + 1, |records|, quota, n) - Bound(j, |records|, quota, n)
  {
    BoundMonotone(j, j + 1, |records|, quota, n);
  }

  // ---------------------------------------------------------------------
  // Consequences of the rollover policy.
  // ---------------------------------------------------------------------

  /** Every target the writer has moved past received exactly the quota. */
  lemma {:induction false} FilledBeforeCursor<R>(records: seq<R>, quota: int, n: nat, j: nat)
    requires n >= 1
    requires j < Run(records, quota, n).cursor
    ensures |Run(records, quota, n).buckets[j]| == quota
  {
    if |records| > 0 {
      var prefix := records[..|records| - 1];
      var s := Run(prefix, quota, n);
      if j < s.cursor {
        FilledBeforeCursor(prefix, quota, n, j);
      }
    }
  }

  /** With a positive quota and enough records for every target but the
      last to fill up, each of those gets exactly the quota and the last
      target gets all the rest, remainder included. */
  lemma QuotaSizes<R>(records: seq<R>, quota: int, n: nat)
    requires n >= 1 && quota >= 1 && (n - 1) * quota <= |records|
    ensures forall j :: 0 <= j < n - 1 ==> |Run(records, quota, n).buckets[j]| == quota
    ensures |Run(records, quota, n).buckets[n - 1]| == |records| - (n - 1) * quota
  {
    RunFields(records, quota, n);
    forall j | 0 <= j < n - 1
      ensures |Bucket(records, j, quota, n)| == quota
    {
      FullBucketSize(records, j, quota, n);
    }
    LastBucketSize(records, quota, n);
  }

  lemma FullBucketSize<R>(records: seq<R>, j: nat, quota: int, n: nat)
    requires n >= 1 && quota >= 1 && (n - 1) * quota <= |records| && j < n - 1
    ensures |Bucket(records, j, quota, n)| == quota
  {
    var m := |records|;
    BucketSize(records, j, quota, n);
    BoundPositiveQuota(j, m, quota, n);
    BoundPositiveQuota(j + 1, m, quota, n);
    MulLe(j + 1, n - 1, quota);
    assert (j + 1) * quota == j * quota + quota;
  }

  lemma MulLe(a: nat, b: nat, q: nat)
    requires a <= b
    ensures a * q <= b * q
  {
    assert b * q == a * q + (b - a) * q;
  }

  lemma LastBucketSize<R>(records: seq<R>, quota: int, n: nat)
    requires n >= 1 && quota >= 1 && (n - 1) * quota <= |records|
    ensures |Bucket(records, n - 1, quota, n)| == |records| - (n - 1) * quota
  {
    BucketSize(records, n - 1, quota, n);
    BoundPositiveQuota(n - 1, |records|, quota, n);
  }

  /** Ten records over three targets with quota 3 give sizes 3, 3 and 4. */
  lemma TenRecordsThreeTargets<R>(records: seq<R>)
    requires |records| == 10
    ensures var b := Run(records, 3, 3).buckets;
            |b| == 3 && |b[0]| == 3 && |b[1]| == 3 && |b[2]| == 4
  {
    QuotaSizes(records, 3, 3);
  }

  /** With quota 0 and at least two targets, the first record finds target 0
      already full: target 0 stays empty, target 1 receives every record and
      no later target is ever opened. */
  lemma QuotaZero<R>(records: seq<R>, n: nat)
    requires n >= 2 && |records| >= 1
    ensures Run(records, 0, n).opens == [0, 1]
    ensures Run(records, 0, n).buckets[0] == []
    ensures Run(records, 0, n).buckets[1] == records
    ensures forall j :: 2 <= j < n ==> Run(records, 0, n).buckets[j] == []
  {
    RunFields(records, 0, n);
    QuotaZeroReference(records, n);
    assert Indices(2) == [0, 1];
  }

  lemma QuotaZeroReference<R>(records: seq<R>, n: nat)
    requires n >= 2 && |records| >= 1
    ensures Cursor(|records|, 0, n) == 1
    ensures Reference(records, 0, n)[0] == []
    ensures Reference(records, 0, n)[1] == records
    ensures forall j :: 2 <= j < n ==> Reference(records, 0, n)[j] == []
  {
    var m := |records|;
    var b := Reference(records, 0, n);
    BoundNone(1, m, 0, n);
    BoundFull(2, m, 0, n);
    assert b[1] == records[0..m];
    forall j | 2 <= j < n
      ensures b[j] == []
    {
      BoundFull(j, m, 0, n);
      BoundFull(j + 1, m, 0, n);
    }
  }

  /** Two records, five targets, quota 0: sizes 0, 2, 0, 0, 0. */
  lemma TwoRecordsFiveTargets<R>(records: seq<R>)
    requires |records| == 2
    ensures var b := Run(records, 0, 5).buckets;
            |b| == 5 && |b[0]| == 0 && |b[1]| == 2 && |b[2]| == 0 && |b[3]| == 0 && |b[4]| == 0
  {
    QuotaZero(records, 5);
  }

  /** Without records only target 0 is opened and every bucket is empty. */
  lemma NoRecords<R>(records: seq<R>, quota: int, n: nat)
    requires n >= 1 && records == []
    ensures Run(records, quota, n).opens == [0]
    ensures forall j :: 0 <= j < n ==> Run(records, quota, n).buckets[j] == []
  {
  }

  /** With a single target every record goes to it, in order. */
  lemma SingleTarget<R>(records: seq<R>, quota: int)
    ensures Run(records, quota, 1).buckets == [records]
    ensures Run(records, quota, 1).opens == [0]
  {
    var b := Run(records, quota, 1).buckets;
    assert b[..0] == [];
  }

  // ---------------------------------------------------------------------
  // The writer as a loop over the records.
  // ---------------------------------------------------------------------

  /** `fastq_records_to_file_w_max`. `paths` is the caller's path list; the
      writer pops its front on every rollover, and `remaining` is that list
      as the caller sees it afterwards. An empty list fails on its first
      element before any record is read. */
  method WriteRecords<R>(records: seq<R>, paths: seq<string>, quota: int) returns (res: Result<Written<R>>)
    ensures res.Err? <==> paths == []
    ensures res.Err? ==> res.error == IndexOutOfRange
    ensures res.Ok? ==> |res.value.buckets| == |paths|
    ensures res.Ok? ==> Flatten(res.value.buckets) == records
    ensures res.Ok? ==> res.value.buckets == Reference(records, quota, |paths|)
    ensures res.Ok? ==> var c := Cursor(|records|, quota, |paths|);
                        res.value.opens == Indices(c + 1) && res.value.remaining == paths[c..]
  {
    if |paths| == 0 {
      return Err(IndexOutOfRange);
    }
    var n := |paths|;
    var remaining := paths;
    var cursor: nat := 0;
    var written: nat := 0;
    var buckets: seq<seq<R>> := seq(n, _ => []);
    var opens: seq<nat> := [0];
    var i := 0;
    while i < |records|
      invariant i <= |records|
      invariant State(cursor, written, buckets, opens) == Run(records[..i], quota, n)
      invariant remaining == paths[cursor..]
    {
      ghost var before := State(cursor, written, buckets, opens);
      if written == quota {
        if |remaining| > 1 {
          remaining := remaining[1..];
          cursor := cursor + 1;
          opens := opens + [cursor];
          written := 0;
        }
      }
      assert State(cursor, written, buckets, opens) == Roll(before, quota, n);
      buckets := buckets[cursor := buckets[cursor] + [records[i]]];
      written := written + 1;
      RunSnoc(records, i, quota, n);
      i := i + 1;
    }
    assert records[..i] == records;
    RunFields(records, quota, n);
    return Ok(Written(buckets, opens, remaining));
  }
}
